=== FILE: README.md ===
# Rock-paper-scissors contract: a Dafny model of the game engine

This project models the game engine of a CosmWasm smart contract for
rock-paper-scissors matches with a stake. The contract does the following:

- Players join a waiting queue keyed by their stake and the number of hands
  needed to win.
- The second player with the same key starts a game with the first.
- Each hand is played by commit and reveal. A player stores the hex digest of
  the move's name followed by a nonce, and later reveals the move and the
  nonce.
- The player who first wins the agreed number of hands is paid the stake
  twice, and the leaderboard records the game.
- A stalled game can be claimed by anyone once a timeout has passed, and a
  player can forfeit their game.
- Read-only queries list games, waiting players and the leaderboard.

The contract keeps three tables:

- `UNMATCHED_PLAYERS` is the waiting queue.
- `game_states()` holds the games. It is keyed by (player1, player2) and has
  unique indexes on player1 and on player2.
- `leaderboard()` holds the profiles. It has an index on (winnings, address).

`Engine.Contract` holds these tables as three Dafny maps (`queue`, `games`,
`leaderboard`). Every execute handler is a method on it, and each one is a
single transaction:

- On success it returns `Ok(payments)`: the bank transfers it emits. Its
  `ensures` clauses give the new contents of all three tables.
- On failure it returns `Err(e)` and leaves all three tables exactly as they
  were. A Rust panic (an overflow of a `u8`/`u32`/`i32`/`u64` counter under
  `overflow-checks`, or `bet_amount[0]` on an empty vector) aborts the
  transaction, and is modelled as the error `Panic`.

`Engine.Contract.Valid` is the invariant every handler keeps:

- every queue entry is stored under its own key;
- every stored game sits under (player1, player2), is undecided, has both
  stakes deposited and never has both moves revealed;
- the two unique indexes hold;
- every profile is stored under its own address.

Modules:

- `State`: the records, the fixed-width integer types, how each table is
  keyed, and the store's iteration order.
- `Lex`: the byte-wise lexicographic order of stored keys.
- `Ordered`: taking the first few elements of a keyed set in storage order.
- `Rules`: the value-level logic. It covers deciding a hand, scoring it, the
  payout, the leaderboard update, the claim rule, and a commit or a reveal on
  one game.
- `Engine`: the handlers and queries over the three tables.
- `Scenario`: a complete game played through the handlers, with concrete
  stakes and moves.

Inputs the contract takes from its environment are parameters:

- The block time (`env.block.time.nanos()`) is the parameter `now`.
- The message sender is the parameter `sender`.
- The attached funds are the parameter `funds`.
- The SHA-256 hex digest is the constructor parameter `hash` of
  `Engine.Contract`. The model never looks inside it. The two members that
  need a property of it, `Rules.RevealBindsMove` and
  `Scenario.WrongNonceRefused`, take injectivity as a precondition.

The store's iteration order is modelled as follows:

- Each key is encoded as a sequence of integers, and `Lex.Le` compares two
  encoded keys.
- A string is encoded as its code points. UTF-8 byte order is code point
  order, so this matches comparing the bytes.
- A fixed-width big-endian integer compares like its unsigned value, so it is
  encoded as one element holding that value.
- The winnings index key `I32Key` (imported at src/state.rs:9) is taken to be
  the raw big-endian two's complement of the winnings, with no sign-bit flip,
  as the `IntKey`-based `I32Key` of the storage library stores it. A negative
  value therefore compares as its unsigned value plus 2^32, above every
  non-negative one. `Engine.WinningsRangeIsNonNegative`,
  `Engine.WinningsOrder` and `Engine.Contract.GetLeaderboard` rest on this.
- The first part of a two-part key carries a length prefix.

Behaviour of the contract a reader may not expect, which the model
reproduces:

- An address may be player1 of one game and player2 of another at the same
  time. The unique indexes forbid only two games with the same player1 or two
  with the same player2.
- A player can join a game against themselves. Joining does not check that
  the queued player differs from the caller.
- A claim needs `updated_at + 60_000 < now`, where both times are in
  nanoseconds, so the timeout is 60 microseconds, and a claim made exactly at
  its end is refused.
- A commit overwrites the caller's slot even when it already holds a revealed
  move.
- A reveal does not need the opponent to have committed.
- The leaderboard update credits player2 for any result other than
  `Player1Wins`.
- A join that pairs two players who already have a game (queued player as
  player1, caller as player2) overwrites that game. Saving under an existing
  primary key replaces the entry; only a clash with a game under a different
  key fails.
- The leaderboard applies `as i32` to the first coin's `u128` amount, which
  keeps only the low 32 bits; the model computes the same wrapped value
  (`Rules.WrapI32`).

## Model

| member | source | states |
|---|---|---|
| State.CommitmentInputInjective | src/state.rs:20-26 | the strings a commitment hashes, a move's display name followed by the nonce, determine both the move and the nonce |
| State.Progress | src/state.rs:28-32 | a move slot is in exactly one of three states: empty (0), committed (1) or revealed (2) |
| State.SetSlot | src/state.rs:54-69 | writing one player's move slot leaves the other player's slot and every other field of the game as they were |
| State.DebugCoins | src/contract.rs:251-254 | the `{:?}` rendering of the attached funds is bracketed, and is `[]` exactly when no coins are attached |
| State.DebugCoinsInjective | src/contract.rs:251-254 | two coin lists have the same `{:?}` rendering only when they are equal, element by element and in order |
| State.SameWagerClass | src/state.rs:113 | two waiting players share a queue key if and only if they staked the same coin list and want the same number of hands |
| State.EncodeQueueKeyInjective | src/state.rs:113 | distinct queue keys are stored as distinct byte keys |
| State.GameKeyOrder | src/state.rs:87-101 | games with the same player1 are stored in the order of their player2 |
| State.GameInSeat | src/state.rs:87-101 | a lookup on the player1 or player2 unique index finds the one game the address holds in that role, or none exactly when it holds none |
| Rules.QueryLimit | src/contract.rs:1120 | the listing limit defaults to 10, is capped at 30, and is the requested value otherwise |
| Rules.GetResult | src/contract.rs:861-877 | player1 wins if and only if their move beats player2's, player2 wins if and only if the reverse holds, and a tie happens if and only if the moves are equal |
| Rules.GetResultSwap | src/contract.rs:861-877 | swapping the two moves swaps Player1Wins and Player2Wins and keeps a tie |
| Rules.SendDoubleTokens | src/contract.rs:880-893 | exactly two transfers, each of them the whole stake to the winner, so the winner receives the stake twice and nobody else anything |
| Rules.ScoreHand | src/contract.rs:895-1021 | exactly the counter of the hand's result rises by one, or the transaction panics when it is at 255; the result is set, with a double payout to the winner, exactly when a winner's counter reaches the target; nothing else changes |
| Rules.HandleHandResult | src/contract.rs:895-1021 | the in-place update of the game computes the same outcome as `ScoreHand` |
| Rules.NoEndWithZeroTarget | src/contract.rs:903-1001 | with a target of zero hands, no hand sets a result or pays anything |
| Rules.WrapI32 | src/contract.rs:492-507 | `as i32` keeps amounts below 2^31 and otherwise agrees with the amount modulo 2^32 |
| Rules.LoadProfile | src/contract.rs:456-480 | a stored profile is loaded as it is; a missing one starts at 0 games played, 0 won and 0 winnings; a profile stored under its own address is loaded with that address |
| Rules.RecordGameSucceeds | src/contract.rs:456-520 | the update succeeds exactly when the stake is non-empty, neither player's games-played counter nor the winner's games-won counter is at the `u32` maximum, and neither the winner's gain nor the loser's loss overflows `i32`; this also holds for a game against oneself |
| Rules.RecordGame | src/contract.rs:447-523 | it fails only by a panic, and profiles stay stored under their own addresses |
| Rules.RecordGameFrame | src/contract.rs:456-520 | an empty stake always panics; only the two players' profiles are created or changed |
| Rules.RecordGameScores | src/contract.rs:483-520 | both players have played one more game; only the winner has won one more; the winner gains the first coin's amount and the pair's total winnings is unchanged |
| Rules.RecordGameAgainstSelf | src/contract.rs:447-523 | in a game against oneself, player2's save is the one that stays: one more game played, and a win with a gain only when the result is not Player1Wins |
| Rules.ClaimWinner | src/contract.rs:727-778 | a claim names player1 exactly when player1 is one step ahead of player2 in the hand, player2 in the mirror case, and nobody otherwise |
| Rules.CommitGame | src/contract.rs:392-397 | the caller's slot holds the new commitment, the other slot is unchanged, `updated_at` is the block time, and nothing else changes |
| Rules.RevealGame | src/contract.rs:554-665 | a reveal is refused with Unauthorized if and only if the caller's slot does not hold the digest of the move and nonce; otherwise it reveals the move, or, if the opponent has revealed, clears both slots and scores the hand in player1/player2 order |
| Rules.CommitThenReveal | src/contract.rs:385-579 | after committing the digest of a move, revealing that move is never refused, and it succeeds whenever the opponent has not revealed |
| Rules.RevealBindsMove | src/contract.rs:557-574 | with an injective digest, a reveal of any other move or nonce than the committed one is refused |
| Rules.RevealOrderIrrelevant | src/contract.rs:583-656 | once both players have committed, both orders of reveal succeed and score the same hand |
| Ordered.First | src/contract.rs:339-345 | returns the element of a non-empty set that comes first in storage order |
| Ordered.TakeInOrder | src/contract.rs:1131-1141 | returns `min(limit, size)` distinct elements of the set in storage order, and every element left out comes after every element returned |
| Engine.NewGame | src/contract.rs:264-279 | the game a join creates is stored under its two players, undecided, with both stakes deposited, no moves, all counters at 0, the caller's funds as stake, and the block time |
| Engine.UniqueIndexTaken | src/contract.rs:289-296 | while the indexes are unique, the save of game `k` is refused exactly when storing `k` would give two games the same player1 or the same player2 |
| Engine.FirstQueuedUnique | src/contract.rs:339-345 | a caller has at most one first queue entry in ascending key order |
| Engine.FirstQueuedBy | src/contract.rs:339-345 | it finds the caller's first queue entry in key order, and finds none exactly when the caller has no entry |
| Engine.WinningsRangeIsNonNegative | src/contract.rs:1120-1139 | the index range from (0, "") inclusive to (i32::MIN, "") exclusive holds exactly the profiles with non-negative winnings |
| Engine.WinningsOrder | src/state.rs:152-161 | among non-negative winnings (the range the leaderboard query walks), the descending walk of the winnings index meets winnings that do not increase, and equal winnings in descending address order |
| Engine.Contract.JoinGame | src/contract.rs:240-331 | with a waiting entry under (funds, hands), that entry is removed and a fresh game (queued player, caller) is stored, unless a unique index is already taken, which fails with no change; otherwise exactly that one entry is added and games are unchanged |
| Engine.Contract.LeaveWaitingQueue | src/contract.rs:333-366 | removes only the caller's first entry in key order and refunds its stake in one transfer; fails with InvalidGame and no change if the caller has no entry |
| Engine.Contract.CommitMove | src/contract.rs:368-445 | InvalidGame without a game, then Unauthorized for a non-player; otherwise only the caller's slot and `updated_at` change |
| Engine.Contract.UpdateLeaderboard | src/contract.rs:447-523 | the leaderboard becomes `RecordGame` of the old one, or stays as it was when that panics |
| Engine.Contract.RevealHand | src/contract.rs:554-665 | the in-place reveal and scoring of one game computes `RevealGame` |
| Engine.Contract.Finish | src/contract.rs:674-686 | a decided game is removed and recorded on the leaderboard with its payments, or nothing changes when recording panics |
| Engine.Contract.RevealMove | src/contract.rs:525-706 | InvalidGame, Unauthorized or Panic leave everything unchanged; an undecided game is saved as `RevealGame` left it; a decided one is removed and recorded, and the winner is paid double |
| Engine.Contract.ClaimGame | src/contract.rs:708-785 | anyone can claim; InvalidGame without a game, Panic on `u64` overflow, Unauthorized before the strict timeout or when `ClaimWinner` names nobody; otherwise the game is removed, recorded for the claim winner, and that winner is paid double |
| Engine.Contract.ForfeitGame | src/contract.rs:787-859 | the caller's game as player1 is forfeited to player2, else their game as player2 to player1, else InvalidGame; the forfeited game is removed, recorded, and the other side is paid double |
| Engine.Contract.GetGame | src/contract.rs:1047-1061 | returns the game stored under (player1, player2), which has those players and no result, or nothing when there is none |
| Engine.Contract.GetGameByPlayer | src/contract.rs:1063-1113 | the address's game as player1, else as player2; "waiting for opponent" holds exactly when there is no game and the address has a queue entry |
| Engine.Contract.GetLeaderboard | src/contract.rs:1115-1147 | `min(limit, 30)` profiles (default 10) with non-negative winnings, all distinct, in non-increasing winnings with ties in descending address order, and every ranked profile left out comes after every one returned in that same order |
| Engine.Contract.GetOpenGames | src/contract.rs:1149-1165 | `min(limit, 30)` waiting players (default 10), stored ones, in strictly ascending key order, and none left out sorts before one returned |
| Engine.Contract.GetGames | src/contract.rs:1167-1183 | `min(limit, 30)` stored games (default 10), in ascending (player1, player2) key order, and none left out sorts before one returned |
| Scenario.DecidingHand | src/contract.rs:951-956 | a hand won by player2 that brings them to the target ends the game with a double payout to player2 |
| Scenario.Paired | src/contract.rs:240-331 | two players joining with the same 5-token stake and one-hand target give exactly one fresh game, (player1, player2), an empty queue and an empty leaderboard |
| Scenario.OpenMatch | src/contract.rs:368-445 | once paired, the players commit the digests of Rock+"1" and Paper+"1"; the one stored game then holds both commitments and the leaderboard stays empty |
| Scenario.WrongNonceRefused | src/contract.rs:557-569 | revealing with a nonce that does not match the commitment is refused with Unauthorized, and the game is left unchanged |
| Scenario.RevealFirst | src/contract.rs:525-608 | player1's reveal of Rock succeeds with no payment and leaves the game waiting for player2 |
| Scenario.StalledMatch | src/contract.rs:708-785 | a claim exactly at the timeout is refused; one nanosecond later it pays player1, who revealed, the stake twice |
| Scenario.SingleHandMatch | src/contract.rs:525-706 | player2's reveal of Paper ends the game: player2 receives 5 tokens twice, player1 nothing, the profiles read (1 played, 0 won, -5) and (1 played, 1 won, +5), and the game is gone |

## Left out

- Instantiation, the admin controller, `UpdateAdmin`, the `Admin` query and the cw2 version record are role management. `Engine.Contract.constructor` stands in for a freshly instantiated store with three empty tables.
- `addr_validate`, the response attributes and the JSON strings built into responses are framework and presentation. An address is modelled as an already validated string.
- SHA-256 itself is not modelled. The hex digest is an opaque function given to the contract.
- Bank transfers are not executed. They are returned as a list of (address, coins) transfers.
- The byte-level key encoding of the storage library is kept only as an order on integer sequences. A string's length prefix is its UTF-8 length, and its two-byte limit is not modelled.
- The `start_after` parameter of the listing queries is ignored, as the queries ignore it.
- State.DebugCoins: renders a coin list the way `{:?}` does, but it escapes only `"`, `\`, newline, carriage return, tab and NUL. The other escapes Rust's `Debug` applies to non-printable characters are not modelled.
- The `query` and `execute` dispatchers, the message and error enums, and the commented-out functions (`try_upsert_game_with_move`, `try_start_game`, `get_games_by_host`, `get_games_by_opponent`) are framework or dead code. `HandState` is never used, and `test_leaderboard` asserts nothing.
- Concurrency is not modelled. The chain runs one transaction at a time, so each handler is one atomic method call.
- Rules.RecordGame: its own contract says only that it fails by a panic and keeps profiles well keyed. When it succeeds is stated in `Rules.RecordGameSucceeds`, and its effect on the scores in `Rules.RecordGameFrame`, `Rules.RecordGameScores` and `Rules.RecordGameAgainstSelf`.
- Arithmetic overflow is modelled as a panic that aborts the transaction. This assumes the contract is built with `overflow-checks = true` in its release profile, as the CosmWasm template does; the build settings are not part of this model. Without that setting, `+= 1` on a `u8` counter would wrap from 255 to 0, and the `Panic` outcomes of `Rules.ScoreHand`, `Rules.RecordGame` and `Engine.Contract.ClaimGame` would be wrong.
- Rules.RevealBindsMove: the digest is assumed injective. A real SHA-256 collision would break the binding, and the model does not quantify that.

=== FILE: engine.dfy ===
/**
  The contract's execute and query handlers over its three tables. Each execute
  handler is one transaction: it either returns the bank transfers it emits and
  leaves the tables as described, or fails and leaves them exactly as they were.
 */
module Engine {
  import opened Wrappers
  import opened State
  import opened Rules
  import Ordered
  import Lex

  /** The transfers an execute handler emits, or why it failed. */
  type Response = Result<seq<BankSend>, ContractError>

  /** The game a successful join creates: the queued player is player1, the caller player2. */
  function NewGame(player1: Addr, player2: Addr, funds: seq<Coin>, numHandsToWin: u8, now: u64): (g: GameState)
    ensures StoredGame((player1, player2), g)
    ensures Progress(g.player1Move) == 0 && Progress(g.player2Move) == 0
    ensures g.player1HandsWon == 0 && g.player2HandsWon == 0 && g.handsTied == 0
    ensures g.betAmount == funds && g.numHandsToWin == numHandsToWin && g.updatedAt == now
  {
    GameState(player1, player2, None, None, 0, 0, 0, funds, true, true, None, numHandsToWin, now)
  }

  /** Saving game `k` breaks a unique index: another game already has the same
      player1 or the same player2. (A game stored under `k` itself does not
      count: its index entries are removed before the new ones are written.) */
  function UniqueIndexTaken(gs: map<GameKey, GameState>, k: GameKey): (taken: bool)
    ensures RolesUnique(gs) ==> (taken <==> !DistinctRoles(gs.Keys + {k}))
  {
    exists k' :: k' in gs && k' != k && (k'.0 == k.0 || k'.1 == k.1)
  }

  /** A save that breaks no unique index keeps every index unique. */
  lemma SaveKeepsRolesUnique(gs: map<GameKey, GameState>, k: GameKey, g: GameState)
    requires RolesUnique(gs) && !UniqueIndexTaken(gs, k)
    ensures RolesUnique(gs[k := g])
  {
  }

  /** `k` is the first entry of `sender` met by an ascending walk of the queue. */
  ghost predicate IsFirstQueued(q: map<QueueKey, UnmatchedPlayer>, sender: Addr, k: QueueKey) {
    && k in q
    && q[k].address == sender
    && forall k' :: k' in q && q[k'].address == sender ==> Lex.Le(EncodeQueueKey(k), EncodeQueueKey(k'))
  }

  lemma {:induction false} FirstQueuedUnique(q: map<QueueKey, UnmatchedPlayer>, sender: Addr, a: QueueKey, b: QueueKey)
    requires IsFirstQueued(q, sender, a) && IsFirstQueued(q, sender, b)
    ensures a == b
  {
    Lex.Antisymmetric(EncodeQueueKey(a), EncodeQueueKey(b));
    EncodeQueueKeyInjective(a, b);
  }

  /** The queue entry `leave` removes: the caller's first in ascending key order. */
  ghost function FirstQueuedBy(q: map<QueueKey, UnmatchedPlayer>, sender: Addr): (r: Option<QueueKey>)
    ensures r.None? <==> forall k :: k in q ==> q[k].address != sender
    ensures r.Some? ==> IsFirstQueued(q, sender, r.value)
  {
    var mine := set k | k in q && q[k].address == sender;
    if mine == {} then
      assert forall k :: k in q ==> q[k].address != sender by {
        forall k | k in q ensures q[k].address != sender {
          assert k !in mine;
        }
      }
      None
    else
      assert exists k :: k in mine && forall y :: y in mine ==> Ordered.Precedes(EncodeQueueKey, false, k, y) by {
        var k := Ordered.FirstExists(mine, EncodeQueueKey, false);
      }
      var k :| k in mine && forall y :: y in mine ==> Ordered.Precedes(EncodeQueueKey, false, k, y);
      assert IsFirstQueued(q, sender, k) by {
        forall k' | k' in q && q[k'].address == sender ensures Lex.Le(EncodeQueueKey(k), EncodeQueueKey(k')) {
          assert k' in mine;
          assert Ordered.Precedes(EncodeQueueKey, false, k, k');
        }
      }
      Some(k)
  }

  /** The profiles the leaderboard query can return: those with non-negative winnings. */
  ghost function Ranked(lb: map<Addr, UserProfile>): set<Addr> {
    set a | a in lb && lb[a].winnings >= 0
  }

  /** The leaderboard range, from winnings 0 inclusive down to i32::MIN exclusive
      in raw two's complement, holds exactly the non-negative winnings. */
  lemma WinningsRangeIsNonNegative(p: UserProfile)
    ensures InWinningsRange(WinningsIndexKey(p)) <==> p.winnings >= 0
  {
    var key := WinningsIndexKey(p);
    var rest := CodePoints(p.address);
    assert key[0] == (if p.winnings >= 0 then p.winnings else p.winnings + 0x1_0000_0000);
    assert key[1..] == rest;
    assert Lex.Le([0], key);
    if p.winnings >= 0 {
      assert Lex.Le(key, [0x8000_0000]);
      assert key != [0x8000_0000];
    } else if key[0] > 0x8000_0000 {
      assert !Lex.Le(key, [0x8000_0000]);
    } else if rest != [] {
      assert [0x8000_0000][1..] == [];
      assert !Lex.Le(key[1..], []);
    } else {
      assert key == [0x8000_0000];
    }
  }

  /** Walking the index in descending order meets larger winnings first, and
      equal winnings in descending address order. */
  lemma WinningsOrder(p: UserProfile, q: UserProfile)
    requires p.winnings >= 0 && q.winnings >= 0
    requires Lex.Le(WinningsIndexKey(q), WinningsIndexKey(p))
    ensures q.winnings <= p.winnings
    ensures q.winnings == p.winnings ==> Lex.Le(CodePoints(q.address), CodePoints(p.address))
  {
    var kp, kq := WinningsIndexKey(p), WinningsIndexKey(q);
    assert kp[0] == p.winnings && kp[1..] == CodePoints(p.address);
    assert kq[0] == q.winnings && kq[1..] == CodePoints(q.address);
  }

  /** The addresses of a list of profiles. */
  function Addresses(ps: seq<UserProfile>): set<Addr> {
    set i | 0 <= i < |ps| :: ps[i].address
  }

  /** The queue keys of a list of queue entries. */
  function QueueKeys(ps: seq<UnmatchedPlayer>): set<QueueKey> {
    set i | 0 <= i < |ps| :: QueueKeyOf(ps[i])
  }

  /** The primary keys of a list of games. */
  function GameKeys(gs: seq<GameState>): set<GameKey> {
    set i | 0 <= i < |gs| :: (gs[i].player1, gs[i].player2)
  }

  class Contract {
    /** SHA-256 of the UTF-8 bytes, printed as lower-case hex: `format!("{:x}", Sha256::digest(..))`. */
    const hash: string -> string
    /** UNMATCHED_PLAYERS: players waiting for an opponent. */
    var queue: map<QueueKey, UnmatchedPlayer>
    /** game_states(): the games in progress, keyed by (player1, player2). */
    var games: map<GameKey, GameState>
    /** leaderboard(): one profile per player who has finished a game. */
    var leaderboard: map<Addr, UserProfile>

    ghost predicate Valid()
      reads this
    {
      QueueWellKeyed(queue) && GamesValid(games) && ProfilesWellKeyed(leaderboard)
    }

    constructor (hash: string -> string)
      ensures Valid()
      ensures this.hash == hash && queue == map[] && games == map[] && leaderboard == map[]
    {
      this.hash := hash;
      queue, games, leaderboard := map[], map[], map[];
    }

    /** The tables after game `k` of `gs0` has finished with `winner`: the game
        is gone and the leaderboard records it, or, if the leaderboard update
        panics, the transaction fails with nothing changed. */
    ghost predicate Settled(gs0: map<GameKey, GameState>, lb0: map<Addr, UserProfile>, k: GameKey,
                            winner: GameResult, payments: seq<BankSend>, r: Response)
      reads this
    {
      && k in gs0
      && var recorded := RecordGame(lb0, k.0, k.1, winner, gs0[k].betAmount);
         if recorded.Err? then r == Err(recorded.error) && games == gs0 && leaderboard == lb0
         else r == Ok(payments) && games == gs0 - {k} && leaderboard == recorded.value
    }

    /** `try_join_game`: pair the caller with the player waiting under the same
        (funds, hands to win) key, or wait under that key. The queued player may
        be the caller itself. */
    method JoinGame(sender: Addr, funds: seq<Coin>, numHandsToWin: u8, now: u64) returns (r: Response)
      requires Valid()
      modifies this
      ensures Valid()
      ensures leaderboard == old(leaderboard)
      ensures r.Err? ==> queue == old(queue) && games == old(games)
      ensures var k := QueueKey(DebugCoins(funds), numHandsToWin);
        if k in old(queue) then
          var gk := (old(queue)[k].address, sender);
          if UniqueIndexTaken(old(games), gk) then r == Err(UniqueIndexViolation)
          else
            && r == Ok([])
            && queue == old(queue) - {k}
            && games == old(games)[gk := NewGame(gk.0, sender, funds, numHandsToWin, now)]
        else
          && r == Ok([])
          && queue == old(queue)[k := UnmatchedPlayer(sender, funds, numHandsToWin)]
          && games == old(games)
    {
      var k := QueueKey(DebugCoins(funds), numHandsToWin);
      if k in queue {
        var unmatched := queue[k];
        var game := NewGame(unmatched.address, sender, funds, numHandsToWin, now);
        var gk := (unmatched.address, sender);
        // The save of the game fails on a unique index, which reverts the
        // removal from the queue as well; check before writing anything.
        if UniqueIndexTaken(games, gk) {
          return Err(UniqueIndexViolation);
        }
        SaveKeepsRolesUnique(games, gk, game);
        queue := queue - {QueueKey(DebugCoins(funds), unmatched.numHandsToWin)};
        games := games[gk := game];
      } else {
        queue := queue[k := UnmatchedPlayer(sender, funds, numHandsToWin)];
      }
      r := Ok([]);
    }

    /** `try_leave_waiting_queue`: take the caller's first queue entry out and
        refund its stake. */
    method LeaveWaitingQueue(sender: Addr) returns (r: Response)
      requires Valid()
      modifies this
      ensures Valid()
      ensures games == old(games) && leaderboard == old(leaderboard)
      ensures match FirstQueuedBy(old(queue), sender)
        case None => r == Err(InvalidGame) && queue == old(queue)
        case Some(k) =>
          && r == Ok([BankSend(sender, old(queue)[k].betAmount)])
          && queue == old(queue) - {k}
    {
      var mine := set k | k in queue && queue[k].address == sender;
      if mine == {} {
        return Err(InvalidGame);
      }
      var k := Ordered.First(mine, EncodeQueueKey, false);
      assert IsFirstQueued(queue, sender, k) by {
        forall k' | k' in queue && queue[k'].address == sender
          ensures Lex.Le(EncodeQueueKey(k), EncodeQueueKey(k'))
        {
          assert k' in mine;
          assert Ordered.Precedes(EncodeQueueKey, false, k, k');
        }
      }
      FirstQueuedUnique(queue, sender, k, FirstQueuedBy(queue, sender).value);
      var unmatched := queue[k];
      queue := queue - {QueueKey(DebugCoins(unmatched.betAmount), unmatched.numHandsToWin)};
      r := Ok([BankSend(sender, unmatched.betAmount)]);
    }

    /** `try_commit_move`: store the caller's hashed move, replacing whatever its
        slot held, a revealed move included. */
    method CommitMove(sender: Addr, player1: Addr, player2: Addr, hashedMove: string, now: u64) returns (r: Response)
      requires Valid()
      modifies this
      ensures Valid()
      ensures queue == old(queue) && leaderboard == old(leaderboard)
      ensures r.Err? ==> games == old(games)
      ensures var k := (player1, player2);
        if k !in old(games) then r == Err(InvalidGame)
        else if sender != player1 && sender != player2 then r == Err(Unauthorized)
        else
          var seat := if sender == player1 then First else Second;
          r == Ok([]) && games == old(games)[k := CommitGame(old(games)[k], seat, hashedMove, now)]
    {
      var k := (player1, player2);
      if k !in games {
        return Err(InvalidGame);
      }
      var game := games[k];
      if sender == player1 {
        games := games[k := game.(player1Move := Some(HashedMove(hashedMove)), updatedAt := now)];
      } else if sender == player2 {
        games := games[k := game.(player2Move := Some(HashedMove(hashedMove)), updatedAt := now)];
      } else {
        return Err(Unauthorized);
      }
      r := Ok([]);
    }

    /** `update_leaderboard`: load or create both profiles, update them, save
        player1's and then player2's. */
    method UpdateLeaderboard(player1: Addr, player2: Addr, result: GameResult, bet: seq<Coin>)
      returns (r: Result<(), ContractError>)
      requires ProfilesWellKeyed(leaderboard)
      modifies this
      ensures ProfilesWellKeyed(leaderboard)
      ensures queue == old(queue) && games == old(games)
      ensures var recorded := RecordGame(old(leaderboard), player1, player2, result, bet);
        if recorded.Err? then r == Err(recorded.error) && leaderboard == old(leaderboard)
        else r == Ok(()) && leaderboard == recorded.value
    {
      ghost var expected := RecordGame(leaderboard, player1, player2, result, bet);
      var p1 := if player1 in leaderboard then leaderboard[player1] else UserProfile(player1, 0, 0, 0);
      var p2 := if player2 in leaderboard then leaderboard[player2] else UserProfile(player2, 0, 0, 0);
      if !FitsU32(p1.numGamesPlayed + 1) || !FitsU32(p2.numGamesPlayed + 1) {
        assert expected == Err(Panic);
        return Err(Panic);
      }
      p1 := p1.(numGamesPlayed := p1.numGamesPlayed + 1);
      p2 := p2.(numGamesPlayed := p2.numGamesPlayed + 1);
      if result == Player1Wins {
        if !FitsU32(p1.numGamesWon + 1) || bet == [] {
          assert expected == Err(Panic);
          return Err(Panic);
        }
        var stake := WrapI32(bet[0].amount);
        if !FitsI32(p1.winnings + stake) || !FitsI32(p2.winnings - stake) {
          assert expected == Err(Panic);
          return Err(Panic);
        }
        p1 := p1.(numGamesWon := p1.numGamesWon + 1, winnings := p1.winnings + stake);
        p2 := p2.(winnings := p2.winnings - stake);
      } else {
        if !FitsU32(p2.numGamesWon + 1) || bet == [] {
          assert expected == Err(Panic);
          return Err(Panic);
        }
        var stake := WrapI32(bet[0].amount);
        if !FitsI32(p2.winnings + stake) || !FitsI32(p1.winnings - stake) {
          assert expected == Err(Panic);
          return Err(Panic);
        }
        p2 := p2.(numGamesWon := p2.numGamesWon + 1, winnings := p2.winnings + stake);
        p1 := p1.(winnings := p1.winnings - stake);
      }
      assert expected == Ok(leaderboard[player1 := p1][player2 := p2]);
      leaderboard := leaderboard[player1 := p1];
      leaderboard := leaderboard[player2 := p2];
      r := Ok(());
    }

    /** The end of a game, as each handler that ends one writes it: remove the
        game, then update the leaderboard; a panic there reverts both. */
    method Finish(k: GameKey, winner: GameResult, payments: seq<BankSend>) returns (r: Response)
      requires Valid() && k in games
      modifies this
      ensures Valid()
      ensures queue == old(queue)
      ensures Settled(old(games), old(leaderboard), k, winner, payments, r)
    {
      var before := games;
      var bet := games[k].betAmount;
      games := games - {k};
      var recorded := UpdateLeaderboard(k.0, k.1, winner, bet);
      if recorded.Err? {
        games := before; // the failed transaction is reverted
        return Err(recorded.error);
      }
      r := Ok(payments);
    }

    /** The part of `try_reveal_move` that works on the loaded game: check the
        commitment in the caller's slot, reveal the move and, if the opponent
        has revealed too, clear both slots and score the hand. */
    method RevealHand(game: GameState, seat: Seat, move: GameMove, nonce: string, now: u64)
      returns (h: Result<Hand, ContractError>)
      ensures h == RevealGame(game, seat, move, nonce, hash, now)
    {
      var updated := game.(updatedAt := now);
      var moveHash := hash(move.Name() + nonce);
      if Slot(game, seat) != Some(HashedMove(moveHash)) {
        return Err(Unauthorized);
      }
      var opponent := Slot(game, seat.Other());
      if seat == First {
        updated := updated.(player1Move := Some(RevealedMove(move)));
      } else {
        updated := updated.(player2Move := Some(RevealedMove(move)));
      }
      if opponent.Some? && opponent.value.RevealedMove? {
        updated := updated.(player1Move := None, player2Move := None);
        if seat == First {
          h := HandleHandResult(updated, move, opponent.value.move);
        } else {
          h := HandleHandResult(updated, opponent.value.move, move);
        }
        return;
      }
      h := Ok(Hand(updated, []));
    }

    /** `try_reveal_move`: open the caller's commitment; when the opponent has
        revealed too, score the hand, and when that ends the game remove it,
        record it on the leaderboard and pay the winner. */
    method RevealMove(sender: Addr, player1: Addr, player2: Addr, move: GameMove, nonce: string, now: u64)
      returns (r: Response)
      requires Valid()
      modifies this
      ensures Valid()
      ensures queue == old(queue)
      ensures r.Err? ==> games == old(games) && leaderboard == old(leaderboard)
      ensures var k := (player1, player2);
        if k !in old(games) then r == Err(InvalidGame)
        else if sender != player1 && sender != player2 then r == Err(Unauthorized)
        else
          var seat := if sender == player1 then First else Second;
          var h := RevealGame(old(games)[k], seat, move, nonce, hash, now);
          if h.Err? then r == Err(h.error)
          else if h.value.game.result == None then
            r == Ok(h.value.payments) && games == old(games)[k := h.value.game] && leaderboard == old(leaderboard)
          else
            Settled(old(games), old(leaderboard), k, h.value.game.result.value, h.value.payments, r)
    {
      var k := (player1, player2);
      if k !in games {
        return Err(InvalidGame);
      }
      var game := games[k];
      var seat: Seat;
      if sender == player1 {
        seat := First;
      } else if sender == player2 {
        seat := Second;
      } else {
        return Err(Unauthorized);
      }
      var revealed := RevealHand(game, seat, move, nonce, now);
      if revealed.Err? {
        return Err(revealed.error);
      }
      var updated, payments := revealed.value.game, revealed.value.payments;
      if updated.result.Some? {
        r := Finish(k, updated.result.value, payments);
      } else {
        games := games[k := updated];
        r := Ok(payments);
      }
    }

    /** `try_claim_game`: anyone may end a game that has been idle for longer
        than the timeout, in favour of the player exactly one step ahead. */
    method ClaimGame(player1: Addr, player2: Addr, now: u64) returns (r: Response)
      requires Valid()
      modifies this
      ensures Valid()
      ensures queue == old(queue)
      ensures r.Err? ==> games == old(games) && leaderboard == old(leaderboard)
      ensures var k := (player1, player2);
        if k !in old(games) then r == Err(InvalidGame)
        else
          var g := old(games)[k];
          if g.updatedAt + ClaimTimeout >= 0x1_0000_0000_0000_0000 then r == Err(Panic)
          else if !(g.updatedAt + ClaimTimeout < now) then r == Err(Unauthorized)
          else match ClaimWinner(g)
            case None => r == Err(Unauthorized)
            case Some(w) => Settled(old(games), old(leaderboard), k, w, SendDoubleTokens(WinnerOf(g, w), g.betAmount), r)
    {
      var k := (player1, player2);
      if k !in games {
        return Err(InvalidGame);
      }
      var game := games[k];
      if game.updatedAt + ClaimTimeout >= 0x1_0000_0000_0000_0000 {
        return Err(Panic);
      }
      if !(game.updatedAt + ClaimTimeout < now) {
        return Err(Unauthorized);
      }
      var winner: GameResult;
      match (game.player1Move, game.player2Move) {
        case (Some(RevealedMove(_)), Some(HashedMove(_))) => winner := Player1Wins;
        case (Some(HashedMove(_)), None) => winner := Player1Wins;
        case (Some(HashedMove(_)), Some(RevealedMove(_))) => winner := Player2Wins;
        case (None, Some(HashedMove(_))) => winner := Player2Wins;
        case (_, _) => return Err(Unauthorized);
      }
      r := Finish(k, winner, SendDoubleTokens(if winner == Player1Wins then player1 else player2, game.betAmount));
    }

    /** `try_forfeit_game`: the caller gives up the game it holds as player1 or,
        failing that, as player2; the opponent wins. There is no timeout. */
    method ForfeitGame(sender: Addr) returns (r: Response)
      requires Valid()
      modifies this
      ensures Valid()
      ensures queue == old(queue)
      ensures r.Err? ==> games == old(games) && leaderboard == old(leaderboard)
      ensures match GameInSeat(old(games), First, sender)
        case Some(k) =>
          Settled(old(games), old(leaderboard), k, Player2Wins, SendDoubleTokens(k.1, old(games)[k].betAmount), r)
        case None =>
          match GameInSeat(old(games), Second, sender)
          case Some(k) =>
            Settled(old(games), old(leaderboard), k, Player1Wins, SendDoubleTokens(k.0, old(games)[k].betAmount), r)
          case None => r == Err(InvalidGame)
    {
      if exists k :: k in games && k.0 == sender {
        var k :| k in games && k.0 == sender;
        var game := games[k];
        r := Finish((game.player1, game.player2), Player2Wins, SendDoubleTokens(game.player2, game.betAmount));
        return;
      }
      if exists k :: k in games && k.1 == sender {
        var k :| k in games && k.1 == sender;
        var game := games[k];
        r := Finish((game.player1, game.player2), Player1Wins, SendDoubleTokens(game.player1, game.betAmount));
        return;
      }
      return Err(InvalidGame);
    }

    // -------------------------------------------------------------------------
    // Queries

    /** `get_game`: the game stored under (player1, player2), if any. */
    function GetGame(player1: Addr, player2: Addr): (r: Option<GameState>)
      requires Valid()
      reads this
      ensures r.Some? <==> (player1, player2) in games
      ensures r.Some? ==> && r.value == games[(player1, player2)]
                          && r.value.player1 == player1 && r.value.player2 == player2
                          && r.value.result == None
                          && r.value.player1BetDeposited && r.value.player2BetDeposited
    {
      var k := (player1, player2);
      if k in games then Some(games[k]) else None
    }

    /** `get_game_by_player`: the game the player holds as player1, else the one
        it holds as player2; with no game, whether it waits in the queue. */
    method GetGameByPlayer(player: Addr) returns (game: Option<GameState>, waitingForOpponent: bool)
      requires Valid()
      ensures game.Some? <==> exists k :: k in games && (k.0 == player || k.1 == player)
      ensures game.Some? ==> (game.value.player1 == player || game.value.player2 == player)
                             && ((exists k :: k in games && k.0 == player) ==> game.value.player1 == player)
      ensures match GameInSeat(games, First, player)
        case Some(k) => game == Some(games[k])
        case None => match GameInSeat(games, Second, player)
          case Some(k) => game == Some(games[k])
          case None => game == None
      ensures waitingForOpponent <==> game.None? && exists k :: k in queue && queue[k].address == player
    {
      if exists k :: k in games && k.0 == player {
        var k :| k in games && k.0 == player;
        return Some(games[k]), false;
      }
      if exists k :: k in games && k.1 == player {
        var k :| k in games && k.1 == player;
        return Some(games[k]), false;
      }
      waitingForOpponent := exists k :: k in queue && queue[k].address == player;
      game := None;
    }

    /** `get_leaderboard`: walk the winnings index downwards from winnings 0
        (inclusive) to i32::MIN (exclusive) and take the first `limit`
        profiles. `start_after` is ignored, as the source ignores it. */
    method GetLeaderboard(limit: Option<u32>) returns (r: seq<UserProfile>)
      requires Valid()
      ensures |r| == Min(QueryLimit(limit), |Ranked(leaderboard)|)
      ensures forall i :: 0 <= i < |r| ==>
        r[i].address in Ranked(leaderboard) && leaderboard[r[i].address] == r[i]
      ensures forall i, j :: 0 <= i < j < |r| ==> r[i].address != r[j].address
      ensures forall i, j :: 0 <= i < j < |r| ==>
        && r[j].winnings <= r[i].winnings
        && (r[j].winnings == r[i].winnings ==> Lex.Le(CodePoints(r[j].address), CodePoints(r[i].address)))
      ensures forall i, a :: 0 <= i < |r| && a in Ranked(leaderboard) && a !in Addresses(r) ==>
        && leaderboard[a].winnings <= r[i].winnings
        && (leaderboard[a].winnings == r[i].winnings ==> Lex.Le(CodePoints(a), CodePoints(r[i].address)))
    {
      var lb := leaderboard;
      var key := (a: Addr) => if a in lb then WinningsIndexKey(lb[a]) else [];
      var inRange := set a | a in lb && InWinningsRange(WinningsIndexKey(lb[a]));
      assert inRange == Ranked(lb) by {
        forall a | a in lb { WinningsRangeIsNonNegative(lb[a]); }
      }
      var addrs := Ordered.TakeInOrder(inRange, key, true, QueryLimit(limit));
      r := seq(|addrs|, i requires 0 <= i < |addrs| && addrs[i] in lb => lb[addrs[i]]);
      assert forall i :: 0 <= i < |r| ==> r[i].address == addrs[i];
      forall i, j | 0 <= i < j < |r|
        ensures && r[j].winnings <= r[i].winnings
                && (r[j].winnings == r[i].winnings ==> Lex.Le(CodePoints(r[j].address), CodePoints(r[i].address)))
      {
        assert Ordered.Precedes(key, true, addrs[i], addrs[j]);
        WinningsOrder(r[i], r[j]);
      }
      forall i, a | 0 <= i < |r| && a in Ranked(leaderboard) && a !in Addresses(r)
        ensures && leaderboard[a].winnings <= r[i].winnings
                && (leaderboard[a].winnings == r[i].winnings ==> Lex.Le(CodePoints(a), CodePoints(r[i].address)))
      {
        assert a !in addrs;
        assert Ordered.Precedes(key, true, addrs[i], a);
        WinningsOrder(r[i], lb[a]);
      }
    }

    /** `get_open_games`: the first `limit` queue entries in ascending key order. */
    method GetOpenGames(limit: Option<u32>) returns (r: seq<UnmatchedPlayer>)
      requires Valid()
      ensures |r| == Min(QueryLimit(limit), |queue|)
      ensures forall i :: 0 <= i < |r| ==> QueueKeyOf(r[i]) in queue && queue[QueueKeyOf(r[i])] == r[i]
      ensures forall i, j :: 0 <= i < j < |r| ==>
        Lex.Lt(EncodeQueueKey(QueueKeyOf(r[i])), EncodeQueueKey(QueueKeyOf(r[j])))
      ensures forall i, k :: 0 <= i < |r| && k in queue && k !in QueueKeys(r) ==>
        Lex.Lt(EncodeQueueKey(QueueKeyOf(r[i])), EncodeQueueKey(k))
    {
      var q := queue;
      var keys := Ordered.TakeInOrder(q.Keys, EncodeQueueKey, false, QueryLimit(limit));
      r := seq(|keys|, i requires 0 <= i < |keys| && keys[i] in q => q[keys[i]]);
      assert forall i :: 0 <= i < |r| ==> QueueKeyOf(r[i]) == keys[i];
      forall i, j | 0 <= i < j < |r|
        ensures Lex.Lt(EncodeQueueKey(QueueKeyOf(r[i])), EncodeQueueKey(QueueKeyOf(r[j])))
      {
        assert Ordered.Precedes(EncodeQueueKey, false, keys[i], keys[j]);
        if EncodeQueueKey(keys[i]) == EncodeQueueKey(keys[j]) {
          EncodeQueueKeyInjective(keys[i], keys[j]);
        }
      }
      forall i, k | 0 <= i < |r| && k in queue && k !in QueueKeys(r)
        ensures Lex.Lt(EncodeQueueKey(QueueKeyOf(r[i])), EncodeQueueKey(k))
      {
        assert k !in keys;
        assert Ordered.Precedes(EncodeQueueKey, false, keys[i], k);
        if EncodeQueueKey(keys[i]) == EncodeQueueKey(k) {
          EncodeQueueKeyInjective(keys[i], k);
        }
      }
    }

    /** `get_games`: the first `limit` games in ascending primary-key order. */
    method GetGames(limit: Option<u32>) returns (r: seq<GameState>)
      requires Valid()
      ensures |r| == Min(QueryLimit(limit), |games|)
      ensures forall i :: 0 <= i < |r| ==>
        (r[i].player1, r[i].player2) in games && games[(r[i].player1, r[i].player2)] == r[i]
      ensures forall i, j :: 0 <= i < j < |r| ==>
        (r[i].player1, r[i].player2) != (r[j].player1, r[j].player2)
        && Lex.Le(EncodeGameKey((r[i].player1, r[i].player2)), EncodeGameKey((r[j].player1, r[j].player2)))
      ensures forall i, k :: 0 <= i < |r| && k in games && k !in GameKeys(r) ==>
        Lex.Le(EncodeGameKey((r[i].player1, r[i].player2)), EncodeGameKey(k))
    {
      var gs := games;
      var keys := Ordered.TakeInOrder(gs.Keys, EncodeGameKey, false, QueryLimit(limit));
      r := seq(|keys|, i requires 0 <= i < |keys| && keys[i] in gs => gs[keys[i]]);
      assert forall i :: 0 <= i < |r| ==> (r[i].player1, r[i].player2) == keys[i];
      forall i, j | 0 <= i < j < |r|
        ensures Lex.Le(EncodeGameKey((r[i].player1, r[i].player2)), EncodeGameKey((r[j].player1, r[j].player2)))
      {
        assert Ordered.Precedes(EncodeGameKey, false, keys[i], keys[j]);
      }
      forall i, k | 0 <= i < |r| && k in games && k !in GameKeys(r)
        ensures Lex.Le(EncodeGameKey((r[i].player1, r[i].player2)), EncodeGameKey(k))
      {
        assert k !in keys;
        assert Ordered.Precedes(EncodeGameKey, false, keys[i], k);
      }
    }
  }
}

=== FILE: lex.dfy ===
/**
  The order in which the key-value store iterates: keys are byte strings compared
  lexicographically, a proper prefix coming first. A key is written here as a
  sequence of integers; see State for how each table's key is encoded.
 */
module Lex {

  /** `a` sorts at or before `b`. */
  predicate Le(a: seq<int>, b: seq<int>)
    decreases |a|
  {
    |a| == 0 || (|b| > 0 && (a[0] < b[0] || (a[0] == b[0] && Le(a[1..], b[1..]))))
  }

  /** `a` sorts strictly before `b`. */
  predicate Lt(a: seq<int>, b: seq<int>) {
    Le(a, b) && a != b
  }

  lemma {:induction false} Reflexive(a: seq<int>)
    ensures Le(a, a)
    decreases |a|
  {
    if |a| > 0 {
      Reflexive(a[1..]);
    }
  }

  lemma {:induction false} Antisymmetric(a: seq<int>, b: seq<int>)
    requires Le(a, b) && Le(b, a)
    ensures a == b
    decreases |a|
  {
    if |a| > 0 {
      Antisymmetric(a[1..], b[1..]);
      assert a == [a[0]] + a[1..] && b == [b[0]] + b[1..];
    }
  }

  lemma {:induction false} Transitive(a: seq<int>, b: seq<int>, c: seq<int>)
    requires Le(a, b) && Le(b, c)
    ensures Le(a, c)
    decreases |a|
  {
    if |a| > 0 && a[0] == b[0] && b[0] == c[0] {
      Transitive(a[1..], b[1..], c[1..]);
    }
  }

  lemma {:induction false} Total(a: seq<int>, b: seq<int>)
    ensures Le(a, b) || Le(b, a)
    decreases |a|
  {
    if |a| > 0 && |b| > 0 && a[0] == b[0] {
      Total(a[1..], b[1..]);
    }
  }

  /** Keys that share a prefix are ordered by what follows it. */
  lemma {:induction false} SharedPrefix(p: seq<int>, a: seq<int>, b: seq<int>)
    ensures Le(p + a, p + b) <==> Le(a, b)
    decreases |p|
  {
    if |p| > 0 {
      assert (p + a)[1..] == p[1..] + a;
      assert (p + b)[1..] == p[1..] + b;
      SharedPrefix(p[1..], a, b);
    } else {
      assert p + a == a && p + b == b;
    }
  }
}

=== FILE: ordered.dfy ===
/**
  Ordered iteration over a table, as the store's `range(.., order).take(limit)`
  performs it: the entries come out in key order, ascending or descending.
 */
module Ordered {
  import Lex
  import opened State

  /** `x` comes no later than `y` when the keys are walked in the given direction. */
  predicate Precedes<K>(key: K -> seq<int>, descending: bool, x: K, y: K) {
    if descending then Lex.Le(key(y), key(x)) else Lex.Le(key(x), key(y))
  }

  lemma PrecedesReflexive<K>(key: K -> seq<int>, descending: bool, x: K)
    ensures Precedes(key, descending, x, x)
  {
    Lex.Reflexive(key(x));
  }

  lemma PrecedesTotal<K>(key: K -> seq<int>, descending: bool, x: K, y: K)
    ensures Precedes(key, descending, x, y) || Precedes(key, descending, y, x)
  {
    Lex.Total(key(x), key(y));
  }

  lemma PrecedesTransitive<K>(key: K -> seq<int>, descending: bool, x: K, y: K, z: K)
    requires Precedes(key, descending, x, y) && Precedes(key, descending, y, z)
    ensures Precedes(key, descending, x, z)
  {
    if descending {
      Lex.Transitive(key(z), key(y), key(x));
    } else {
      Lex.Transitive(key(x), key(y), key(z));
    }
  }

  /** Every non-empty table has an entry the walk meets first. */
  lemma {:induction false} FirstExists<K>(s: set<K>, key: K -> seq<int>, descending: bool) returns (x: K)
    requires s != {}
    ensures x in s && forall y :: y in s ==> Precedes(key, descending, x, y)
    decreases |s|
  {
    x :| x in s;
    PrecedesReflexive(key, descending, x);
    var rest := s - {x};
    if rest == {} {
      forall y | y in s ensures Precedes(key, descending, x, y) {
        assert y !in rest;
      }
    } else {
      var z := FirstExists(rest, key, descending);
      PrecedesTotal(key, descending, x, z);
      if Precedes(key, descending, x, z) {
        forall y | y in rest ensures Precedes(key, descending, x, y) {
          PrecedesTransitive(key, descending, x, z, y);
        }
      } else {
        forall y | y in s ensures Precedes(key, descending, z, y) {
          if y == x { } else { assert y in rest; }
        }
        x := z;
      }
    }
  }

  /** The entry the walk meets first. */
  method First<K(==)>(s: set<K>, key: K -> seq<int>, descending: bool) returns (x: K)
    requires s != {}
    ensures x in s
    ensures forall y :: y in s ==> Precedes(key, descending, x, y)
  {
    x :| x in s;
    PrecedesReflexive(key, descending, x);
    var rest := s - {x};
    while rest != {}
      invariant rest <= s && x in s
      invariant forall y :: y in s && y !in rest ==> Precedes(key, descending, x, y)
      decreases |rest|
    {
      var y :| y in rest;
      if !Precedes(key, descending, x, y) {
        PrecedesTotal(key, descending, x, y);
        forall z | z in s && z !in rest
          ensures Precedes(key, descending, y, z)
        {
          PrecedesTransitive(key, descending, y, x, z);
        }
        PrecedesReflexive(key, descending, y);
        x := y;
      }
      rest := rest - {y};
    }
  }

  /** The first `limit` entries of the walk, in walk order. */
  method TakeInOrder<K(==)>(s: set<K>, key: K -> seq<int>, descending: bool, limit: nat) returns (out: seq<K>)
    ensures |out| == Min(limit, |s|)
    ensures forall i :: 0 <= i < |out| ==> out[i] in s
    ensures forall i, j :: 0 <= i < j < |out| ==> out[i] != out[j]
    ensures forall i, j :: 0 <= i < j < |out| ==> Precedes(key, descending, out[i], out[j])
    ensures forall i, y :: 0 <= i < |out| && y in s && y !in out ==> Precedes(key, descending, out[i], y)
  {
    out := [];
    var rest := s;
    while |out| < limit && rest != {}
      invariant rest <= s
      invariant forall y :: y in s ==> (y in rest <==> y !in out)
      invariant |out| + |rest| == |s|
      invariant |out| <= limit
      invariant forall i :: 0 <= i < |out| ==> out[i] in s
      invariant forall i, j :: 0 <= i < j < |out| ==> out[i] != out[j]
      invariant forall i, j :: 0 <= i < j < |out| ==> Precedes(key, descending, out[i], out[j])
      invariant forall i, y :: 0 <= i < |out| && y in rest ==> Precedes(key, descending, out[i], y)
      decreases |rest|
    {
      var x := First(rest, key, descending);
      out := out + [x];
      rest := rest - {x};
    }
  }
}

=== FILE: rules.dfy ===
/**
  The parts of the game engine that compute a value from a value: deciding a
  hand, scoring it, the payout, the leaderboard update of a finished game, and
  what a commit, a reveal or a claim does to one game.
 */
module Rules {
  import opened Wrappers
  import opened State

  /**
    Why a transaction fails. The first three are the contract's errors
    (`UniqueIndexViolation` is the store's error when a save would break a
    unique index). `Panic` stands for a Rust panic (an arithmetic overflow or
    an out-of-range index), which aborts the transaction just as an error does.
   */
  datatype ContractError = Unauthorized | InvalidGame | UniqueIndexViolation | Panic

  /** The claim timeout, in the unit of `updated_at`, which is nanoseconds. */
  const ClaimTimeout: nat := 60 * 1_000

  /** `limit.unwrap_or(10).min(30)` of the listing queries. */
  function QueryLimit(limit: Option<u32>): (n: nat)
    ensures n <= 30
    ensures limit.None? ==> n == 10
    ensures limit.Some? && limit.value <= 30 ==> n == limit.value
    ensures limit.Some? && limit.value > 30 ==> n == 30
  {
    Min(limit.GetOr(10), 30)
  }

  // ---------------------------------------------------------------------------
  // Deciding a hand

  /** The dominance rule: rock blunts scissors, scissors cut paper, paper covers rock. */
  predicate Beats(a: GameMove, b: GameMove) {
    (a == Rock && b == Scissors) || (a == Scissors && b == Paper) || (a == Paper && b == Rock)
  }

  function GetResult(host: GameMove, opp: GameMove): (r: GameResult)
    ensures r == Player1Wins <==> Beats(host, opp)
    ensures r == Player2Wins <==> Beats(opp, host)
    ensures r == Tie <==> host == opp
  {
    match (host, opp)
    case (Rock, Paper) => Player2Wins
    case (Paper, Rock) => Player1Wins
    case (Paper, Scissors) => Player2Wins
    case (Scissors, Paper) => Player1Wins
    case (Scissors, Rock) => Player2Wins
    case (Rock, Scissors) => Player1Wins
    case (Rock, Rock) => Tie
    case (Scissors, Scissors) => Tie
    case (Paper, Paper) => Tie
  }

  function Mirror(r: GameResult): GameResult {
    match r
    case Player1Wins => Player2Wins
    case Player2Wins => Player1Wins
    case Tie => Tie
  }

  /** Swapping the moves swaps the winner. */
  lemma GetResultSwap(a: GameMove, b: GameMove)
    ensures GetResult(b, a) == Mirror(GetResult(a, b))
  {
  }

  // ---------------------------------------------------------------------------
  // Payouts

  /** The coins a list of transfers sends to `who`, in order. */
  function Received(msgs: seq<BankSend>, who: Addr): seq<Coin> {
    if msgs == [] then []
    else (if msgs[0].toAddress == who then msgs[0].amount else []) + Received(msgs[1..], who)
  }

  /** The winner's payout: the stake, sent twice (their own and the opponent's). */
  function SendDoubleTokens(to: Addr, amount: seq<Coin>): (msgs: seq<BankSend>)
    ensures |msgs| == 2
    ensures forall i :: 0 <= i < |msgs| ==> msgs[i] == BankSend(to, amount)
    ensures Received(msgs, to) == amount + amount
    ensures forall who :: who != to ==> Received(msgs, who) == []
  {
    var msgs := [BankSend(to, amount), BankSend(to, amount)];
    assert forall who :: Received(msgs, who) == (if who == to then amount + amount else []) by {
      forall who ensures Received(msgs, who) == (if who == to then amount + amount else []) {
        assert msgs[1..][1..] == [];
        assert Received(msgs[1..], who) == (if who == to then amount else []) + Received([], who);
      }
    }
    msgs
  }

  /** The address a result names; any result other than Player1Wins names player2. */
  function WinnerOf(g: GameState, r: GameResult): Addr {
    if r == Player1Wins then g.player1 else g.player2
  }

  // ---------------------------------------------------------------------------
  // Scoring a hand

  datatype Hand = Hand(game: GameState, payments: seq<BankSend>)

  /** The counter a hand result raises. */
  function Counter(g: GameState, r: GameResult): u8 {
    match r
    case Player1Wins => g.player1HandsWon
    case Player2Wins => g.player2HandsWon
    case Tie => g.handsTied
  }

  /** Everything but the counters and the result is the same. */
  predicate SameMatch(g: GameState, g': GameState) {
    g' == g.(player1HandsWon := g'.player1HandsWon, player2HandsWon := g'.player2HandsWon,
             handsTied := g'.handsTied, result := g'.result)
  }

  /** `handle_hand_result`: raise the counter of the hand's result; a player who
      reaches the target wins the game and is paid double the stake. */
  function ScoreHand(g: GameState, m1: GameMove, m2: GameMove): (r: Result<Hand, ContractError>)
    ensures var res := GetResult(m1, m2);
      && (r.Err? <==> Counter(g, res) == 0xFF)
      && (r.Err? ==> r.error == Panic)
      && (r.Ok? ==>
            var g' := r.value.game;
            var ends := res != Tie && Counter(g', res) == g.numHandsToWin;
            && SameMatch(g, g')
            && Counter(g', res) == Counter(g, res) + 1
            && (forall other :: other != res ==> Counter(g', other) == Counter(g, other))
            && g'.result == (if ends then Some(res) else g.result)
            && r.value.payments == (if ends then SendDoubleTokens(WinnerOf(g, res), g.betAmount) else []))
  {
    match GetResult(m1, m2)
    case Player1Wins =>
      if g.player1HandsWon == 0xFF then Err(Panic)
      else
        var s := g.(player1HandsWon := g.player1HandsWon + 1);
        if s.player1HandsWon == s.numHandsToWin then
          Ok(Hand(s.(result := Some(Player1Wins)), SendDoubleTokens(s.player1, s.betAmount)))
        else
          Ok(Hand(s, []))
    case Player2Wins =>
      if g.player2HandsWon == 0xFF then Err(Panic)
      else
        var s := g.(player2HandsWon := g.player2HandsWon + 1);
        if s.player2HandsWon == s.numHandsToWin then
          Ok(Hand(s.(result := Some(Player2Wins)), SendDoubleTokens(s.player2, s.betAmount)))
        else
          Ok(Hand(s, []))
    case Tie =>
      if g.handsTied == 0xFF then Err(Panic)
      else Ok(Hand(g.(handsTied := g.handsTied + 1), []))
  }

  /** `handle_hand_result` as the source writes it: it updates the game in place. */
  method HandleHandResult(g: GameState, m1: GameMove, m2: GameMove) returns (r: Result<Hand, ContractError>)
    ensures r == ScoreHand(g, m1, m2)
  {
    var s := g;
    var payments: seq<BankSend> := [];
    var result := GetResult(m1, m2);
    match result {
      case Player1Wins =>
        if s.player1HandsWon == 0xFF { return Err(Panic); }
        s := s.(player1HandsWon := s.player1HandsWon + 1);
        if s.player1HandsWon == s.numHandsToWin {
          s := s.(result := Some(result));
          payments := SendDoubleTokens(s.player1, s.betAmount);
        }
      case Player2Wins =>
        if s.player2HandsWon == 0xFF { return Err(Panic); }
        s := s.(player2HandsWon := s.player2HandsWon + 1);
        if s.player2HandsWon == s.numHandsToWin {
          s := s.(result := Some(result));
          payments := SendDoubleTokens(s.player2, s.betAmount);
        }
      case Tie =>
        if s.handsTied == 0xFF { return Err(Panic); }
        s := s.(handsTied := s.handsTied + 1);
    }
    r := Ok(Hand(s, payments));
  }

  /** With a target of zero hands no hand ever ends the game. */
  lemma NoEndWithZeroTarget(g: GameState, m1: GameMove, m2: GameMove)
    requires g.numHandsToWin == 0
    ensures var r := ScoreHand(g, m1, m2);
      r.Ok? ==> r.value.game.result == g.result && r.value.payments == []
  {
  }

  // ---------------------------------------------------------------------------
  // The leaderboard update of a finished game

  /** A stored profile, or the all-zero profile a first game starts from. */
  function LoadProfile(lb: map<Addr, UserProfile>, a: Addr): (p: UserProfile)
    ensures a in lb ==> p == lb[a]
    ensures ProfilesWellKeyed(lb) ==> p.address == a
    ensures a !in lb ==> p.numGamesPlayed == 0 && p.numGamesWon == 0 && p.winnings == 0
  {
    if a in lb then lb[a] else UserProfile(a, 0, 0, 0)
  }

  /** Rust's `as i32` on a `u128`: keep the low 32 bits, read them as two's complement. */
  function WrapI32(x: nat): (r: i32)
    ensures x < 0x8000_0000 ==> r == x
    ensures (r - x) % 0x1_0000_0000 == 0
  {
    var low := x % 0x1_0000_0000;
    if low < 0x8000_0000 then low else low - 0x1_0000_0000
  }


  /** `update_leaderboard`: both players have played one more game; the player
      the result names (player2 for anything but Player1Wins) has won one more
      and gains the first coin's amount, which the other loses. */
  function RecordGame(lb: map<Addr, UserProfile>, p1: Addr, p2: Addr, result: GameResult, bet: seq<Coin>)
    : (r: Result<map<Addr, UserProfile>, ContractError>)
    ensures r.Err? ==> r.error == Panic
    ensures r.Ok? && ProfilesWellKeyed(lb) ==> ProfilesWellKeyed(r.value)
  {
    var a, b := LoadProfile(lb, p1), LoadProfile(lb, p2);
    if !FitsU32(a.numGamesPlayed + 1) || !FitsU32(b.numGamesPlayed + 1) then Err(Panic)
    else
      var a, b := a.(numGamesPlayed := a.numGamesPlayed + 1), b.(numGamesPlayed := b.numGamesPlayed + 1);
      var w, l := if result == Player1Wins then a else b, if result == Player1Wins then b else a;
      if !FitsU32(w.numGamesWon + 1) || bet == [] then Err(Panic)
      else
        var stake := WrapI32(bet[0].amount);
        if !FitsI32(w.winnings + stake) || !FitsI32(l.winnings - stake) then Err(Panic)
        else
          var w := w.(numGamesWon := w.numGamesWon + 1, winnings := w.winnings + stake);
          var l := l.(winnings := l.winnings - stake);
          if result == Player1Wins then Ok(lb[p1 := w][p2 := l]) else Ok(lb[p1 := l][p2 := w])
  }

  /** Only the two players' profiles change, and an empty stake always panics
      (`bet_amount[0]` on an empty vector). */
  lemma RecordGameFrame(lb: map<Addr, UserProfile>, p1: Addr, p2: Addr, result: GameResult, bet: seq<Coin>)
    ensures bet == [] ==> RecordGame(lb, p1, p2, result, bet).Err?
    ensures var r := RecordGame(lb, p1, p2, result, bet);
      r.Ok? ==> r.value.Keys == lb.Keys + {p1, p2} && forall a :: a in lb && a != p1 && a != p2 ==> r.value[a] == lb[a]
  {
  }

  /** Between two different players: both have played one more game, the
      winner has won one more, and the stake moves from the loser's winnings to
      the winner's, so their sum is unchanged. */
  lemma RecordGameScores(lb: map<Addr, UserProfile>, p1: Addr, p2: Addr, result: GameResult, bet: seq<Coin>)
    requires p1 != p2
    ensures var r := RecordGame(lb, p1, p2, result, bet);
      r.Ok? ==>
      var (w, l) := if result == Player1Wins then (p1, p2) else (p2, p1);
      var stake := WrapI32(bet[0].amount);
      && r.value[w].numGamesPlayed == LoadProfile(lb, w).numGamesPlayed + 1
      && r.value[l].numGamesPlayed == LoadProfile(lb, l).numGamesPlayed + 1
      && r.value[w].numGamesWon == LoadProfile(lb, w).numGamesWon + 1
      && r.value[l].numGamesWon == LoadProfile(lb, l).numGamesWon
      && r.value[w].winnings == LoadProfile(lb, w).winnings + stake
      && r.value[w].winnings + r.value[l].winnings == LoadProfile(lb, w).winnings + LoadProfile(lb, l).winnings
  {
  }

  /** When the leaderboard update succeeds: the stake is not empty and neither
      a games counter nor a winnings total overflows. With `p1 == p2` the
      winner and the loser are the same profile, and the statement still holds. */
  lemma RecordGameSucceeds(lb: map<Addr, UserProfile>, p1: Addr, p2: Addr, result: GameResult, bet: seq<Coin>)
    ensures var (w, l) := if result == Player1Wins then (p1, p2) else (p2, p1);
      RecordGame(lb, p1, p2, result, bet).Ok? <==>
        && bet != []
        && LoadProfile(lb, p1).numGamesPlayed < 0xFFFF_FFFF
        && LoadProfile(lb, p2).numGamesPlayed < 0xFFFF_FFFF
        && LoadProfile(lb, w).numGamesWon < 0xFFFF_FFFF
        && FitsI32(LoadProfile(lb, w).winnings + WrapI32(bet[0].amount))
        && FitsI32(LoadProfile(lb, l).winnings - WrapI32(bet[0].amount))
  {
  }

  /** A game against oneself: both profile updates land on the same entry and
      the second save (player2's) is the one that stays. */
  lemma RecordGameAgainstSelf(lb: map<Addr, UserProfile>, p: Addr, result: GameResult, bet: seq<Coin>)
    requires RecordGame(lb, p, p, result, bet).Ok?
    ensures var after := RecordGame(lb, p, p, result, bet).value[p];
      var before := LoadProfile(lb, p);
      var stake := WrapI32(bet[0].amount);
      && after.numGamesPlayed == before.numGamesPlayed + 1
      && after.numGamesWon == before.numGamesWon + (if result == Player1Wins then 0 else 1)
      && after.winnings == before.winnings + (if result == Player1Wins then -stake else stake)
  {
  }

  // ---------------------------------------------------------------------------
  // What a claim decides

  /** Who wins a claim, from the two move slots: the player exactly one step
      ahead of the other in the current hand. */
  function ClaimWinner(g: GameState): (w: Option<GameResult>)
    ensures w == Some(Player1Wins) <==> Progress(g.player1Move) == Progress(g.player2Move) + 1
    ensures w == Some(Player2Wins) <==> Progress(g.player2Move) == Progress(g.player1Move) + 1
    ensures w != Some(Tie)
  {
    match (g.player1Move, g.player2Move)
    case (Some(RevealedMove(_)), Some(HashedMove(_))) => Some(Player1Wins)
    case (Some(HashedMove(_)), None) => Some(Player1Wins)
    case (Some(HashedMove(_)), Some(RevealedMove(_))) => Some(Player2Wins)
    case (None, Some(HashedMove(_))) => Some(Player2Wins)
    case (_, _) => None
  }

  // ---------------------------------------------------------------------------
  // Commit and reveal on one game

  /** A commit puts the digest in the caller's slot, whatever the slot held. */
  function CommitGame(g: GameState, seat: Seat, hashedMove: string, now: u64): (g': GameState)
    ensures Slot(g', seat) == Some(HashedMove(hashedMove)) && Progress(Slot(g', seat)) == 1
    ensures Slot(g', seat.Other()) == Slot(g, seat.Other())
    ensures g' == g.(player1Move := g'.player1Move, player2Move := g'.player2Move, updatedAt := now)
  {
    SetSlot(g, seat, Some(HashedMove(hashedMove))).(updatedAt := now)
  }

  /** The digest a reveal must match. */
  function Commitment(hash: string -> string, m: GameMove, nonce: string): string {
    hash(m.Name() + nonce)
  }

  /** A reveal on one game: the caller's slot must hold the digest of the move's
      name and the nonce; the move is then revealed, and if the opponent had
      revealed already both slots are cleared and the hand is scored in
      player1/player2 order. */
  function RevealGame(g: GameState, seat: Seat, m: GameMove, nonce: string, hash: string -> string, now: u64)
    : (r: Result<Hand, ContractError>)
    ensures r.Err? ==> r.error in {Unauthorized, Panic}
    ensures r.Err? && r.error == Unauthorized <==> Slot(g, seat) != Some(HashedMove(Commitment(hash, m, nonce)))
    ensures Slot(g, seat) == Some(HashedMove(Commitment(hash, m, nonce))) && Progress(Slot(g, seat.Other())) < 2 ==>
      r == Ok(Hand(SetSlot(g, seat, Some(RevealedMove(m))).(updatedAt := now), []))
    ensures Slot(g, seat) == Some(HashedMove(Commitment(hash, m, nonce))) && Progress(Slot(g, seat.Other())) == 2 ==>
      var o := Slot(g, seat.Other()).value.move;
      var (m1, m2) := if seat == First then (m, o) else (o, m);
      var cleared := g.(player1Move := None, player2Move := None, updatedAt := now);
      r == ScoreHand(cleared, m1, m2)
  {
    if Slot(g, seat) != Some(HashedMove(Commitment(hash, m, nonce))) then Err(Unauthorized)
    else
      var upd := SetSlot(g.(updatedAt := now), seat, Some(RevealedMove(m)));
      match Slot(g, seat.Other())
      case Some(RevealedMove(o)) =>
        var cleared := upd.(player1Move := None, player2Move := None);
        if seat == First then ScoreHand(cleared, m, o) else ScoreHand(cleared, o, m)
      case _ => Ok(Hand(upd, []))
  }

  /** A player who committed the digest of a move can always reveal that move:
      the reveal is never refused, and it can fail only by a panic in scoring. */
  lemma CommitThenReveal(g: GameState, seat: Seat, m: GameMove, nonce: string, hash: string -> string, t1: u64, t2: u64)
    ensures var r := RevealGame(CommitGame(g, seat, Commitment(hash, m, nonce), t1), seat, m, nonce, hash, t2);
      && (r.Err? ==> r.error == Panic)
      && (Progress(Slot(g, seat.Other())) < 2 ==> r.Ok? && Slot(r.value.game, seat) == Some(RevealedMove(m)))
  {
  }

  /** A commitment binds: when the digest function is injective, a reveal of any
      other (move, nonce) than the committed one is refused. */
  lemma {:induction false} RevealBindsMove(g: GameState, seat: Seat, m: GameMove, nonce: string,
                                          m': GameMove, nonce': string, hash: string -> string, now: u64)
    requires forall x, y :: hash(x) == hash(y) ==> x == y
    requires Slot(g, seat) == Some(HashedMove(Commitment(hash, m, nonce)))
    requires m' != m || nonce' != nonce
    ensures RevealGame(g, seat, m', nonce', hash, now) == Err(Unauthorized)
  {
    if Commitment(hash, m', nonce') == Commitment(hash, m, nonce) {
      CommitmentInputInjective(m', nonce', m, nonce);
    }
  }

  /** Once both players have committed, it does not matter who reveals first:
      the second reveal scores the same hand either way. */
  lemma RevealOrderIrrelevant(g: GameState, m1: GameMove, n1: string, m2: GameMove, n2: string,
                              hash: string -> string, t1: u64, t2: u64)
    requires g.player1Move == Some(HashedMove(Commitment(hash, m1, n1)))
    requires g.player2Move == Some(HashedMove(Commitment(hash, m2, n2)))
    ensures var a := RevealGame(g, First, m1, n1, hash, t1);
      var b := RevealGame(g, Second, m2, n2, hash, t1);
      && a.Ok? && b.Ok?
      && RevealGame(a.value.game, Second, m2, n2, hash, t2) == RevealGame(b.value.game, First, m1, n1, hash, t2)
      && RevealGame(a.value.game, Second, m2, n2, hash, t2)
         == ScoreHand(g.(player1Move := None, player2Move := None, updatedAt := t2), m1, m2)
  {
  }
}

=== FILE: scenario.dfy ===
/**
  A complete match driven through the contract's handlers: two players stake 5
  tokens each on a single winning hand, player1 plays rock and player2 paper.
 */
module Scenario {
  import opened Wrappers
  import opened State
  import opened Rules
  import opened Engine

  /** A hand won by the player one short of the target ends the match. */
  lemma DecidingHand(g: GameState, m1: GameMove, m2: GameMove)
    requires GetResult(m1, m2) == Player2Wins && g.player2HandsWon as int + 1 == g.numHandsToWin as int
    ensures ScoreHand(g, m1, m2)
      == Ok(Hand(g.(player2HandsWon := g.numHandsToWin, result := Some(Player2Wins)), SendDoubleTokens(g.player2, g.betAmount)))
  {
  }

  /** The game both players have committed to: rock from player1, paper from player2. */
  function Committed(hash: string -> string): GameState {
    NewGame("player1", "player2", [Coin("ustake", 5)], 1, 200)
      .(player1Move := Some(HashedMove(hash("Rock" + "1"))),
        player2Move := Some(HashedMove(hash("Paper" + "1"))), updatedAt := 400)
  }

  /** Both players join with the same stake and target: the second join starts the game. */
  method Paired(hash: string -> string) returns (c: Contract)
    ensures fresh(c) && c.Valid() && c.hash == hash
    ensures c.games == map[("player1", "player2") := NewGame("player1", "player2", [Coin("ustake", 5)], 1, 200)]
    ensures c.queue == map[] && c.leaderboard == map[]
  {
    c := new Contract(hash);
    var stake := [Coin("ustake", 5)];
    var r := c.JoinGame("player1", stake, 1, 100);
    assert c.queue == map[QueueKey(DebugCoins(stake), 1) := UnmatchedPlayer("player1", stake, 1)];
    r := c.JoinGame("player2", stake, 1, 200);
    assert !UniqueIndexTaken(map[], ("player1", "player2"));
  }

  /** Once paired, both players commit. */
  method OpenMatch(hash: string -> string) returns (c: Contract)
    ensures fresh(c) && c.Valid() && c.hash == hash
    ensures c.games == map[("player1", "player2") := Committed(hash)] && c.leaderboard == map[]
  {
    c := Paired(hash);
    var k := ("player1", "player2");
    var r := c.CommitMove("player1", "player1", "player2", hash("Rock" + "1"), 300);
    var g := NewGame("player1", "player2", [Coin("ustake", 5)], 1, 200)
      .(player1Move := Some(HashedMove(hash("Rock" + "1"))), updatedAt := 300);
    assert c.games == map[k := g];
    r := c.CommitMove("player2", "player1", "player2", hash("Paper" + "1"), 400);
  }

  /** A reveal with a nonce other than the committed one is refused. */
  method WrongNonceRefused(hash: string -> string) returns (refused: Response, intact: bool)
    requires forall x, y :: hash(x) == hash(y) ==> x == y
    ensures refused == Err(Unauthorized) && intact
  {
    var c := OpenMatch(hash);
    RevealBindsMove(Committed(hash), First, Rock, "1", Rock, "2", hash, 450);
    refused := c.RevealMove("player1", "player1", "player2", Rock, "2", 450);
    intact := c.games == map[("player1", "player2") := Committed(hash)] && c.leaderboard == map[];
  }

  /** The game after player1 has revealed rock. */
  function HalfRevealed(hash: string -> string): GameState {
    Committed(hash).(player1Move := Some(RevealedMove(Rock)), updatedAt := 500)
  }

  /** Player1 reveals first; the game waits for player2. */
  method RevealFirst(hash: string -> string) returns (c: Contract, r: Response)
    ensures fresh(c) && c.Valid() && c.hash == hash && r == Ok([])
    ensures c.games == map[("player1", "player2") := HalfRevealed(hash)] && c.leaderboard == map[]
  {
    c := OpenMatch(hash);
    assert Commitment(hash, Rock, "1") == hash("Rock" + "1");
    assert RevealGame(Committed(hash), First, Rock, "1", hash, 500) == Ok(Hand(HalfRevealed(hash), []));
    r := c.RevealMove("player1", "player1", "player2", Rock, "1", 500);
  }

  /** Player1 reveals and player2 stalls: a claim at the end of the timeout is
      refused, one a nanosecond later pays player1. */
  method StalledMatch(hash: string -> string) returns (early: Response, late: Response)
    ensures early == Err(Unauthorized)
    ensures late == Ok(SendDoubleTokens("player1", [Coin("ustake", 5)]))
  {
    var c, _ := RevealFirst(hash);
    early := c.ClaimGame("player1", "player2", 500 + ClaimTimeout);
    assert WrapI32(5) == 5;
    late := c.ClaimGame("player1", "player2", 500 + ClaimTimeout + 1);
  }

  /** Player2's reveal of paper ends the match on the first hand: player2 is
      paid both stakes and the leaderboard moves 5 tokens from player1 to
      player2. */
  method SingleHandMatch(hash: string -> string)
    returns (payments: seq<BankSend>, profile1: UserProfile, profile2: UserProfile, stillOpen: bool)
    ensures Received(payments, "player2") == [Coin("ustake", 5)] + [Coin("ustake", 5)]
    ensures Received(payments, "player1") == []
    ensures profile1 == UserProfile("player1", 1, 0, -5)
    ensures profile2 == UserProfile("player2", 1, 1, 5)
    ensures !stillOpen
  {
    var c, _ := RevealFirst(hash);
    var k := ("player1", "player2");
    var stake := [Coin("ustake", 5)];
    var cleared := Committed(hash).(player1Move := None, player2Move := None, updatedAt := 600);
    DecidingHand(cleared, Rock, Paper);
    var done := cleared.(player2HandsWon := 1, result := Some(Player2Wins));
    assert Commitment(hash, Paper, "1") == hash("Paper" + "1");
    assert RevealGame(HalfRevealed(hash), Second, Paper, "1", hash, 600) == Ok(Hand(done, SendDoubleTokens("player2", stake)));
    assert WrapI32(5) == 5;
    var p1, p2 := UserProfile("player1", 1, 0, -5), UserProfile("player2", 1, 1, 5);
    assert RecordGame(map[], "player1", "player2", Player2Wins, stake) == Ok(map["player1" := p1, "player2" := p2]);
    var r := c.RevealMove("player2", "player1", "player2", Paper, "1", 600);
    payments := if r.Ok? then r.value else [];
    assert c.leaderboard == map["player1" := p1, "player2" := p2];
    profile1 := c.leaderboard["player1"];
    profile2 := c.leaderboard["player2"];
    stillOpen := k in c.games;
  }
}

=== FILE: state.dfy ===
/**
  The data model of the contract: the records kept in its three tables, how each
  table is keyed, and the order in which the store iterates over each table.
 */
module State {
  import opened Wrappers
  import Lex

  // Rust's fixed-width integers, as the record fields declare them.
  type u8 = x: int | 0 <= x < 0x100
  type u32 = x: int | FitsU32(x)
  type i32 = x: int | FitsI32(x)
  type u64 = x: int | 0 <= x < 0x1_0000_0000_0000_0000
  type u128 = x: int | 0 <= x < 0x1_0000_0000_0000_0000_0000_0000_0000_0000

  /** The ranges of `u32` and `i32`, where an arithmetic result must land or panic. */
  predicate FitsU32(x: int) { 0 <= x < 0x1_0000_0000 }
  predicate FitsI32(x: int) { -0x8000_0000 <= x < 0x8000_0000 }

  /** A validated account address. */
  type Addr = string

  datatype Coin = Coin(denom: string, amount: u128)

  datatype GameMove = Rock | Paper | Scissors {
    /** What `Display` prints (it delegates to `Debug`): the variant's name. */
    function Name(): string {
      match this
      case Rock => "Rock"
      case Paper => "Paper"
      case Scissors => "Scissors"
    }
  }

  /**
    The string a commitment hashes is the move's name followed by the nonce.
    Distinct (move, nonce) pairs give distinct strings, so a digest can only
    ever open to one move.
   */
  lemma CommitmentInputInjective(m1: GameMove, n1: string, m2: GameMove, n2: string)
    requires m1.Name() + n1 == m2.Name() + n2
    ensures m1 == m2 && n1 == n2
  {
    assert (m1.Name() + n1)[0] == m1.Name()[0];
    assert (m2.Name() + n2)[0] == m2.Name()[0];
    assert m1 == m2;
    var k := |m1.Name()|;
    assert n1 == (m1.Name() + n1)[k..];
    assert n2 == (m2.Name() + n2)[k..];
  }

  /** A player's move slot holds a revealed move or a commitment (the hex digest). */
  datatype PlayerMove = RevealedMove(move: GameMove) | HashedMove(hash: string)

  /** How far a player has got in the current hand: 0 no move, 1 committed, 2 revealed. */
  function Progress(slot: Option<PlayerMove>): (n: nat)
    ensures n <= 2
    ensures n == 0 <==> slot == None
    ensures n == 2 <==> slot.Some? && slot.value.RevealedMove?
  {
    match slot
    case None => 0
    case Some(HashedMove(_)) => 1
    case Some(RevealedMove(_)) => 2
  }

  /** Used both for the result of one hand and for the result of a game. */
  datatype GameResult = Player1Wins | Player2Wins | Tie

  datatype GameState = GameState(
    player1: Addr,
    player2: Addr,
    player1Move: Option<PlayerMove>,
    player2Move: Option<PlayerMove>,
    player1HandsWon: u8,
    player2HandsWon: u8,
    handsTied: u8,
    betAmount: seq<Coin>,
    player1BetDeposited: bool,
    player2BetDeposited: bool,
    result: Option<GameResult>,
    numHandsToWin: u8,
    updatedAt: u64)

  /** Which of the two players of a game. */
  datatype Seat = First | Second {
    function Other(): Seat {
      if this == First then Second else First
    }
  }

  function Slot(g: GameState, seat: Seat): Option<PlayerMove> {
    if seat == First then g.player1Move else g.player2Move
  }

  function SetSlot(g: GameState, seat: Seat, v: Option<PlayerMove>): (g': GameState)
    ensures Slot(g', seat) == v && Slot(g', seat.Other()) == Slot(g, seat.Other())
    ensures g' == g.(player1Move := g'.player1Move, player2Move := g'.player2Move)
  {
    if seat == First then g.(player1Move := v) else g.(player2Move := v)
  }

  datatype UnmatchedPlayer = UnmatchedPlayer(address: Addr, betAmount: seq<Coin>, numHandsToWin: u8)

  datatype UserProfile = UserProfile(address: Addr, numGamesPlayed: u32, numGamesWon: u32, winnings: i32)

  /** A bank transfer the contract asks the chain to execute once the transaction commits. */
  datatype BankSend = BankSend(toAddress: Addr, amount: seq<Coin>)

  function Min(a: int, b: int): int {
    if a <= b then a else b
  }

  // ---------------------------------------------------------------------------
  // The waiting queue is keyed by (Debug rendering of the funds, hands to win).

  datatype QueueKey = QueueKey(funds: string, hands: u8)

  function QueueKeyOf(p: UnmatchedPlayer): QueueKey {
    QueueKey(DebugCoins(p.betAmount), p.numHandsToWin)
  }

  /** `format!("{:?}", funds)` of a `Vec<Coin>`. */
  function DebugCoins(cs: seq<Coin>): (s: string)
    ensures |s| >= 2 && s[0] == '[' && s[|s| - 1] == ']'
    ensures s == "[]" <==> cs == []
  {
    assert cs != [] ==> |DebugCoin(cs[0])| > 0 && |DebugCoinItems(cs)| > 0;
    "[" + DebugCoinItems(cs) + "]"
  }

  function DebugCoinItems(cs: seq<Coin>): string {
    if |cs| == 0 then ""
    else if |cs| == 1 then DebugCoin(cs[0])
    else DebugCoin(cs[0]) + (", " + DebugCoinItems(cs[1..]))
  }

  /** The derived `Debug` of `Coin`, whose amount is a `Uint128` tuple struct. */
  function DebugCoin(c: Coin): string {
    "Coin { denom: \"" + (EscapeDebug(c.denom) + ("\", amount: Uint128(" + (Decimal(c.amount) + ") }")))
  }

  /** `Debug` of a string body: quote, backslash and the common control characters are escaped. */
  function EscapeDebug(s: string): string {
    if s == [] then "" else EscapeChar(s[0]) + EscapeDebug(s[1..])
  }

  function EscapeChar(c: char): string {
    match c
    case '"' => "\\\""
    case '\\' => "\\\\"
    case '\n' => "\\n"
    case '\r' => "\\r"
    case '\t' => "\\t"
    case '\0' => "\\0"
    case _ => [c]
  }

  /** The decimal digits of `n`, most significant first, without leading zeros. */
  function Decimal(n: nat): (s: string)
    ensures |s| > 0 && (n >= 10 ==> |s| >= 2)
    ensures forall i :: 0 <= i < |s| ==> '0' <= s[i] <= '9'
    decreases n
  {
    if n < 10 then [DigitChar(n)] else Decimal(n / 10) + [DigitChar(n % 10)]
  }

  function DigitChar(d: nat): (c: char)
    requires d < 10
    ensures '0' <= c <= '9'
  {
    (48 + d) as char
  }

  lemma StripPrefix(p: string, s: string, t: string)
    requires p + s == p + t
    ensures s == t
  {
    assert s == (p + s)[|p|..];
    assert t == (p + t)[|p|..];
  }

  /** One escaped character can be read back off the front of a string. */
  lemma EscapeCharSplit(c: char, d: char, s: string, t: string)
    requires EscapeChar(c) + s == EscapeChar(d) + t
    ensures c == d && s == t
  {
    var ec, ed := EscapeChar(c), EscapeChar(d);
    assert (ec + s)[0] == ec[0] && (ed + t)[0] == ed[0];
    if |ec| == 2 {
      assert (ec + s)[1] == ec[1] && (ed + t)[1] == ed[1];
    }
    assert c == d;
    StripPrefix(ec, s, t);
  }

  lemma QuoteIsNotEscaped(x: string, s: string, t: string)
    requires x != []
    ensures EscapeDebug(x) + s != "\"" + t
  {
    assert (EscapeDebug(x) + s)[0] == EscapeChar(x[0])[0];
    assert ("\"" + t)[0] == '"';
  }

  /** An escaped string never contains an unescaped quote, so the quote that
      closes it is found without ambiguity. */
  lemma {:induction false} EscapeSplit(x: string, y: string, s: string, t: string)
    requires EscapeDebug(x) + ("\"" + s) == EscapeDebug(y) + ("\"" + t)
    ensures x == y && s == t
    decreases |x|
  {
    if x == [] && y == [] {
      assert EscapeDebug(x) == [] && EscapeDebug(y) == [];
      assert EscapeDebug(x) + ("\"" + s) == "\"" + s && EscapeDebug(y) + ("\"" + t) == "\"" + t;
      StripPrefix("\"", s, t);
    } else if x == [] {
      QuoteIsNotEscaped(y, "\"" + t, s);
    } else if y == [] {
      QuoteIsNotEscaped(x, "\"" + s, t);
    } else {
      assert EscapeDebug(x) + ("\"" + s) == EscapeChar(x[0]) + (EscapeDebug(x[1..]) + ("\"" + s));
      assert EscapeDebug(y) + ("\"" + t) == EscapeChar(y[0]) + (EscapeDebug(y[1..]) + ("\"" + t));
      EscapeCharSplit(x[0], y[0], EscapeDebug(x[1..]) + ("\"" + s), EscapeDebug(y[1..]) + ("\"" + t));
      EscapeSplit(x[1..], y[1..], s, t);
      assert x == [x[0]] + x[1..] && y == [y[0]] + y[1..];
    }
  }

  lemma {:induction false} DecimalInjective(n: nat, m: nat)
    requires Decimal(n) == Decimal(m)
    ensures n == m
    decreases n
  {
    var dn, dm := Decimal(n), Decimal(m);
    if n >= 10 && m >= 10 {
      assert dn[|dn| - 1] == DigitChar(n % 10) && dm[|dm| - 1] == DigitChar(m % 10);
      assert dn[..|dn| - 1] == Decimal(n / 10) && dm[..|dm| - 1] == Decimal(m / 10);
      DecimalInjective(n / 10, m / 10);
    } else if n < 10 && m < 10 {
      assert dn[0] == DigitChar(n) && dm[0] == DigitChar(m);
    }
  }

  lemma DigitsBeforeParen(n: nat, m: nat, s: string, t: string)
    requires |Decimal(n)| < |Decimal(m)|
    ensures Decimal(n) + (")" + s) != Decimal(m) + (")" + t)
  {
    var k := |Decimal(n)|;
    assert (Decimal(n) + (")" + s))[k] == ')';
    assert (Decimal(m) + (")" + t))[k] == Decimal(m)[k];
  }

  /** The digits of an amount end where the closing parenthesis starts. */
  lemma DecimalSplit(n: nat, m: nat, s: string, t: string)
    requires Decimal(n) + (")" + s) == Decimal(m) + (")" + t)
    ensures n == m && s == t
  {
    var dn, dm := Decimal(n), Decimal(m);
    var ln, lm := dn + (")" + s), dm + (")" + t);
    if |dn| < |dm| {
      DigitsBeforeParen(n, m, s, t);
    } else if |dm| < |dn| {
      DigitsBeforeParen(m, n, t, s);
    } else {
      assert dn == ln[..|dn|] && dm == lm[..|dm|];
      DecimalInjective(n, m);
      StripPrefix(dn, ")" + s, ")" + t);
      StripPrefix(")", s, t);
    }
  }

  lemma Assoc(a: string, b: string, c: string)
    ensures (a + b) + c == a + (b + c)
  {
  }

  /** The rendering of a coin followed by `s`, as nested concatenations. */
  lemma DebugCoinThen(c: Coin, s: string)
    ensures DebugCoin(c) + s
      == "Coin { denom: \"" + (EscapeDebug(c.denom) + ("\", amount: Uint128(" + (Decimal(c.amount) + (")" + (" }" + s)))))
  {
    var e, d := EscapeDebug(c.denom), Decimal(c.amount);
    var z := d + ") }";
    var y := "\", amount: Uint128(" + z;
    var x := e + y;
    Assoc("Coin { denom: \"", x, s);
    Assoc(e, y, s);
    Assoc("\", amount: Uint128(", z, s);
    Assoc(d, ") }", s);
    Assoc(")", " }", s);
  }

  /** A coin's rendering can be read back off the front of a string. */
  lemma DebugCoinSplit(c: Coin, d: Coin, s: string, t: string)
    requires DebugCoin(c) + s == DebugCoin(d) + t
    ensures c == d && s == t
  {
    var head, mid := "Coin { denom: \"", "\", amount: Uint128(";
    var sc, tc := " }" + s, " }" + t;
    var ds, dt := Decimal(c.amount) + (")" + sc), Decimal(d.amount) + (")" + tc);
    DebugCoinThen(c, s);
    DebugCoinThen(d, t);
    StripPrefix(head, EscapeDebug(c.denom) + (mid + ds), EscapeDebug(d.denom) + (mid + dt));
    assert mid == "\"" + mid[1..];
    Assoc("\"", mid[1..], ds);
    Assoc("\"", mid[1..], dt);
    EscapeSplit(c.denom, d.denom, mid[1..] + ds, mid[1..] + dt);
    StripPrefix(mid[1..], ds, dt);
    DecimalSplit(c.amount, d.amount, sc, tc);
    StripPrefix(" }", s, t);
  }

  /** A non-empty list's rendering, followed by the closing bracket, is its first
      coin's rendering followed by the rest. */
  lemma DebugCoinItemsUnroll(a: seq<Coin>)
    requires a != []
    ensures DebugCoinItems(a) + "]"
      == DebugCoin(a[0]) + (if |a| == 1 then "]" else ", " + (DebugCoinItems(a[1..]) + "]"))
  {
    if |a| > 1 {
      Assoc(DebugCoin(a[0]), ", " + DebugCoinItems(a[1..]), "]");
      Assoc(", ", DebugCoinItems(a[1..]), "]");
    }
  }

  lemma {:induction false} DebugCoinItemsInjective(a: seq<Coin>, b: seq<Coin>)
    requires DebugCoinItems(a) + "]" == DebugCoinItems(b) + "]"
    ensures a == b
    decreases |a|
  {
    if a == [] && b == [] {
    } else if a == [] || b == [] {
      assert false;
    } else {
      var ta := if |a| == 1 then "]" else ", " + (DebugCoinItems(a[1..]) + "]");
      var tb := if |b| == 1 then "]" else ", " + (DebugCoinItems(b[1..]) + "]");
      DebugCoinItemsUnroll(a);
      DebugCoinItemsUnroll(b);
      DebugCoinSplit(a[0], b[0], ta, tb);
      if |a| > 1 && |b| > 1 {
        StripPrefix(", ", DebugCoinItems(a[1..]) + "]", DebugCoinItems(b[1..]) + "]");
        DebugCoinItemsInjective(a[1..], b[1..]);
        assert a == [a[0]] + a[1..] && b == [b[0]] + b[1..];
      } else if |a| > 1 || |b| > 1 {
        assert false;
      }
    }
  }

  /** Two coin lists have the same rendering only when they are equal, element
      by element and in the same order. */
  lemma DebugCoinsInjective(a: seq<Coin>, b: seq<Coin>)
    requires DebugCoins(a) == DebugCoins(b)
    ensures a == b
  {
    assert DebugCoins(a) == "[" + (DebugCoinItems(a) + "]");
    assert DebugCoins(b) == "[" + (DebugCoinItems(b) + "]");
    StripPrefix("[", DebugCoinItems(a) + "]", DebugCoinItems(b) + "]");
    DebugCoinItemsInjective(a, b);
  }

  /** Two waiting players share a queue key exactly when they staked the same
      coin list and asked for the same number of hands. */
  lemma SameWagerClass(p: UnmatchedPlayer, q: UnmatchedPlayer)
    ensures QueueKeyOf(p) == QueueKeyOf(q) <==> p.betAmount == q.betAmount && p.numHandsToWin == q.numHandsToWin
  {
    if QueueKeyOf(p) == QueueKeyOf(q) {
      DebugCoinsInjective(p.betAmount, q.betAmount);
    }
  }

  // ---------------------------------------------------------------------------
  // Storage order. A string is stored as its UTF-8 bytes; UTF-8 byte order is
  // code point order, so a string is compared here through its code points.
  // A fixed-width big-endian integer compares like its unsigned value, so it is
  // kept as one element. The first part of a two-part key is prefixed with its
  // byte length.

  function CodePoints(s: string): (r: seq<int>)
    ensures |r| == |s| && forall i :: 0 <= i < |s| ==> r[i] == s[i] as int
  {
    seq(|s|, i requires 0 <= i < |s| => s[i] as int)
  }

  function Utf8Width(c: char): nat {
    if c as int < 0x80 then 1 else if c as int < 0x800 then 2 else if c as int < 0x10000 then 3 else 4
  }

  function Utf8Len(s: string): nat {
    if s == [] then 0 else Utf8Width(s[0]) + Utf8Len(s[1..])
  }

  /** The stored key of a queue entry: (String, U8Key). */
  function EncodeQueueKey(k: QueueKey): seq<int> {
    [Utf8Len(k.funds)] + CodePoints(k.funds) + [k.hands]
  }

  lemma EncodeQueueKeyInjective(a: QueueKey, b: QueueKey)
    requires EncodeQueueKey(a) == EncodeQueueKey(b)
    ensures a == b
  {
    var ea, eb := EncodeQueueKey(a), EncodeQueueKey(b);
    assert |a.funds| == |b.funds|;
    forall i | 0 <= i < |a.funds| ensures a.funds[i] == b.funds[i] {
      assert ea[i + 1] == eb[i + 1];
    }
    assert ea[|ea| - 1] == eb[|eb| - 1];
  }

  /** A game's primary key: (player1 bytes, player2 bytes). */
  type GameKey = (Addr, Addr)

  function Holder(k: GameKey, seat: Seat): Addr {
    if seat == First then k.0 else k.1
  }

  function EncodeGameKey(k: GameKey): seq<int> {
    [Utf8Len(k.0)] + CodePoints(k.0) + CodePoints(k.1)
  }

  /** Games with the same player1 are stored in the order of their player2. */
  lemma GameKeyOrder(p: Addr, a: Addr, b: Addr)
    ensures Lex.Le(EncodeGameKey((p, a)), EncodeGameKey((p, b))) <==> Lex.Le(CodePoints(a), CodePoints(b))
  {
    Lex.SharedPrefix([Utf8Len(p)] + CodePoints(p), CodePoints(a), CodePoints(b));
  }

  /** The `winnings` index key of a profile: (I32Key, primary key). The I32Key
      is the raw big-endian two's complement of the value, which compares like
      the unsigned 32-bit number with the same bits. */
  function WinningsIndexKey(p: UserProfile): seq<int> {
    [if p.winnings >= 0 then p.winnings else p.winnings + 0x1_0000_0000] + CodePoints(p.address)
  }

  /** The leaderboard query ranges over index keys from (0, "") inclusive to (i32::MIN, "") exclusive. */
  predicate InWinningsRange(key: seq<int>) {
    Lex.Le([0], key) && Lex.Lt(key, [0x8000_0000])
  }

  // ---------------------------------------------------------------------------
  // What every stored record satisfies.

  ghost predicate QueueWellKeyed(q: map<QueueKey, UnmatchedPlayer>) {
    forall k :: k in q ==> QueueKeyOf(q[k]) == k
  }

  predicate BothRevealed(g: GameState) {
    Progress(g.player1Move) == 2 && Progress(g.player2Move) == 2
  }

  /** A game as it sits in storage: keyed by its players, still undecided,
      both stakes in, and never with both moves revealed (the second reveal
      scores the hand and clears the slots). */
  ghost predicate StoredGame(k: GameKey, g: GameState) {
    && g.player1 == k.0
    && g.player2 == k.1
    && g.result == None
    && g.player1BetDeposited
    && g.player2BetDeposited
    && !BothRevealed(g)
  }

  /** The unique indexes on player1 and on player2: no address is player1 of two
      stored games, and none is player2 of two. */
  ghost predicate RolesUnique(gs: map<GameKey, GameState>) {
    DistinctRoles(gs.Keys)
  }

  /** No two of the keys share a player1, and no two share a player2. */
  ghost predicate DistinctRoles(ks: set<GameKey>) {
    forall k1, k2 :: k1 in ks && k2 in ks && k1 != k2 ==> k1.0 != k2.0 && k1.1 != k2.1
  }

  ghost predicate GamesValid(gs: map<GameKey, GameState>) {
    (forall k :: k in gs ==> StoredGame(k, gs[k])) && RolesUnique(gs)
  }

  ghost predicate ProfilesWellKeyed(lb: map<Addr, UserProfile>) {
    forall a :: a in lb ==> lb[a].address == a
  }

  /** The game, if any, that `a` holds in the given seat (a lookup on that seat's unique index). */
  ghost function GameInSeat(gs: map<GameKey, GameState>, seat: Seat, a: Addr): (r: Option<GameKey>)
    requires RolesUnique(gs)
    ensures r.Some? ==> r.value in gs && Holder(r.value, seat) == a
    ensures r.None? <==> forall k :: k in gs ==> Holder(k, seat) != a
    ensures forall k :: k in gs && Holder(k, seat) == a ==> r == Some(k)
  {
    if exists k :: k in gs && Holder(k, seat) == a then
      var k :| k in gs && Holder(k, seat) == a; Some(k)
    else
      None
  }
}

=== FILE: wrappers.dfy ===
/** Option and Result, the two failure-carrying shapes the contract uses. */
module Wrappers {

  datatype Option<+T> = None | Some(value: T) {
    function GetOr(default: T): T {
      match this
      case Some(v) => v
      case None => default
    }
  }

  datatype Result<+T, +E> = Ok(value: T) | Err(error: E)
}
